=== FILE: README.md ===
# PeopleHub directory: a verified model

PeopleHub is a single-page people directory. A table lists employee records.
Each row can be clicked, edited or deleted, and a form creates or edits one
record after checking it against a five-field schema. All data lives in memory.
The page seeds itself with 100 generated people.

This Dafny project models the logic of the three components that carry that
workflow:

- `directory.dfy` (module `Directory`) models `PeopleDirectory.jsx`. It covers
  the record store (delete by index, add, update by email), the seed
  generator, and the page's state machine: the selected row and the
  `isEditing` / `isAdding` flags that decide whether the form is open and what
  it starts from. The page is the class `Directory.PeopleDirectory`. Its
  methods are the page's handlers. The new store each handler computes is
  given by a sequence function (`RemoveAt`, `UpdateByEmail`, `CompleteRecord`).
- `table.dfy` (module `Table`) models `PeopleTable.jsx`. It covers the
  role/team filter, the filter view state (class `Table.TableView`), the
  column sorting flags, the filter options, and the query-string pairs that
  the page writes into its URL.
- `form.dfy` (module `Form`) models `PeopleForm.jsx`. It covers the schema
  (`Validate`, which reports every failing field), the normalisation of the
  form's starting values, and the photo preview with its remove action
  (class `Form.Editor`).
- `js.dfy` (module `Js`) holds the JavaScript vocabulary the three share.
  Records are maps from keys to values, and an absent key reads as
  `undefined`. It also defines truthiness and the shallow spread
  `{...a, ...b}`, which is map union with the right side winning.

The lemmas state what the code promises:

- delete removes exactly the indexed record, or nothing;
- add appends one record, and the generated fields override the form's;
- update by email merges into every matching record and leaves the others alone;
- the filter keeps exactly the matching records in their store order (a record stored twice is kept twice, and nothing else is repeated), and is idempotent;
- the query string holds `query`, `role`, `team` in that order, each iff its filter is set;
- the form accepts exactly the values that meet all five conditions, passes on only the five schema fields, and each field's error depends on that field alone.

Three behaviours of the code are modelled as written:

- **Deleting from a filtered table.** The delete icon passes the row's
  position in the filtered list. The store removes its own record at that
  position. `Directory.DeleteFromFilteredRow` proves that the clicked record
  sits at a store position that is never before the removed one, and that the
  two are the same whenever both filters are empty.
  `Directory.DeleteUnderFilterHitsWrongRecord` exhibits two records where a
  role filter makes the delete remove the record that is not shown.
- **Editing an email.** Update matches on the email in the edited values. When
  the user changes the email to one that no record holds, nothing matches and
  the store stays as it was (`Directory.EditedEmailIsLost`,
  `Directory.UpdateNoMatch`). When another record already holds the new email,
  that record is overwritten instead (`Directory.EditedEmailOverwritesHolder`).
- **Saving a photo.** The schema's parse keeps only the five schema fields, so
  the `profileImage` value set by the file input or by "Remove Photo" never
  reaches the save handler. An added record has no photo, and an edit keeps
  every stored photo as it was (`Form.Editor.Submit`, `Directory.PhotoNeverSaved`).

Three further points about the code:

- A delete index is a position in the filtered list. The page does not map it
  back to a store position (see above).
- The error messages are the schema's own ("Name is required", "Role is
  required", "At least one team is required", "Invalid email address").
- The schema only checks that `role` is a non-empty string. A role or a team
  outside the select options still passes (`Form.SchemaIgnoresOptions`).

## Model

| member | source | states |
|---|---|---|
| `Js.Merge` | Frontend/src/pages/PeopleDirectory.jsx:89 | the spread `{...row, ...patch}` has every key of both sides; patch values win and row keeps its other fields |
| `Form.Errors` | Frontend/src/components/PeopleForm.jsx:9-15 | the error map has an entry for a schema field exactly when that field's check fails, holding that check's error; no other keys |
| `Form.CheckNonEmptyString` | Frontend/src/components/PeopleForm.jsx:10-12 | passes exactly a non-empty string; a string that is empty fails with the field's own message, anything else with a type error |
| `Form.CheckEmail` | Frontend/src/components/PeopleForm.jsx:11 | passes exactly a string satisfying the email predicate; another string fails with "Invalid email address", anything else with a type error |
| `Form.CheckStatus` | Frontend/src/components/PeopleForm.jsx:13 | passes exactly "Active" and "Inactive"; another string fails naming the two allowed values, anything else with a type error |
| `Form.CheckTeams` | Frontend/src/components/PeopleForm.jsx:14 | passes exactly a list of strings with at least one item; the empty list fails with "At least one team is required", anything else with that message or a type error |
| `Form.CheckField` | Frontend/src/components/PeopleForm.jsx:9-15 | a key outside the schema never fails; each of the five fields passes exactly when its condition holds, and a passing schema field is present |
| `Form.SchemaPart` | Frontend/src/components/PeopleForm.jsx:9 | the parsed object has the keys common to the values and the schema, each with the value's own entry |
| `Form.Validate` | Frontend/src/components/PeopleForm.jsx:9-15 | an accepted submission carries exactly the five schema fields, each with the form's value, and drops every other key; a rejected one carries the complete non-empty error map |
| `Form.ValidateAcceptsIff` | Frontend/src/components/PeopleForm.jsx:9-15 | the form accepts iff name is a non-empty string, email satisfies the email predicate, role is a non-empty string, status is "Active" or "Inactive", and teams is a list of at least one string |
| `Form.ErrorsIndependent` | Frontend/src/components/PeopleForm.jsx:119-195 | whether a field fails, and with which error, depends on that field's value alone, so one failure never suppresses another |
| `Form.ErrorMessages` | Frontend/src/components/PeopleForm.jsx:10-14 | an empty name, an empty role, an empty team list, a malformed email or an unknown status each report the schema's own message for that field |
| `Form.SchemaIgnoresOptions` | Frontend/src/components/PeopleForm.jsx:12-29 | a role and a team outside the select options still pass the schema |
| `Form.AcceptedTeamsListed` | Frontend/src/components/PeopleForm.jsx:14 | accepted values always carry a non-empty list of team strings |
| `Form.Normalise` | Frontend/src/components/PeopleForm.jsx:44-49 | teams becomes a list (the given one if it was a list, else empty); a falsy role becomes ""; a truthy status is kept and a falsy one becomes "Active"; every other field passes through unchanged |
| `Form.NormaliseIdempotent` | Frontend/src/components/PeopleForm.jsx:44-49 | normalising already-normalised values changes nothing |
| `Form.InitialPreview` | Frontend/src/components/PeopleForm.jsx:52-54 | the preview is always truthy: the record's own photo when it has a truthy one, otherwise the placeholder |
| `Form.Editor.constructor` | Frontend/src/components/PeopleForm.jsx:36-54 | a form opens only on defaults whose teams is a list, as the teams select and the required `teams` prop demand; it holds the normalised defaults with that list kept and the initial preview; the remove-photo button (PeopleForm.jsx:95) is offered iff the form edits a record whose own photo is truthy and not the placeholder |
| `Form.Editor.RemovePhoto` | Frontend/src/components/PeopleForm.jsx:95-102 | offered only when editing with a non-placeholder preview; resets the preview to the placeholder, sets the profileImage value to "", and withdraws the button |
| `Form.Editor.ChangeFile` | Frontend/src/components/PeopleForm.jsx:56-68 | with no file nothing changes; with a file, preview and profileImage value both become the file's data URL, and the remove-photo button is then offered iff editing and that URL is not the placeholder |
| `Form.Editor.SetValue` | Frontend/src/components/PeopleForm.jsx:144-146 | a select's setValue replaces that one field and nothing else |
| `Form.Editor.Submit` | Frontend/src/components/PeopleForm.jsx:74 | the outcome is the schema's verdict on the current values: accepted iff the five conditions hold, and then exactly the five schema fields with the form's values, never profileImage; otherwise every failing field is reported |
| `Form.BlankFormErrors` | Frontend/src/pages/PeopleDirectory.jsx:129-137 | the blank add-form is already normalised, and submitting it untouched reports name, role and teams with their own messages while status passes |
| `Table.FilterRows` | Frontend/src/components/PeopleTable.jsx:111-118 | the filtered list is no longer than the store and every kept record is from the store and matches both filters |
| `Table.KeepMeaning` | Frontend/src/components/PeopleTable.jsx:113-116 | a record passes iff (no role filter or its role equals the filter) and (no team filter or its team list has the team); with no filters every record passes |
| `Table.KeptPositions` | Frontend/src/components/PeopleTable.jsx:112 | gives for each filtered row its position in the store; the positions strictly increase, so the filter preserves relative order |
| `Table.KeptPositionsComplete` | Frontend/src/components/PeopleTable.jsx:111-118 | a store position appears among the kept positions iff its record matches both filters, so no matching record is skipped |
| `Table.FilterMembership` | Frontend/src/components/PeopleTable.jsx:111-118 | a record is kept iff it is in the store and (role filter empty or role equal) and (team filter empty or teams include it) |
| `Table.FilterNoDuplicates` | Frontend/src/components/PeopleTable.jsx:112 | the filtered list's multiset is contained in the store's: nothing is invented or duplicated |
| `Table.FilterEmptyIsIdentity` | Frontend/src/components/PeopleTable.jsx:113-116 | with both filters empty the filtered list is the store |
| `Table.KeptPositionsEmptyFilter` | Frontend/src/components/PeopleTable.jsx:113-116 | with both filters empty, row k of the table is store record k |
| `Table.FilterIdempotent` | Frontend/src/components/PeopleTable.jsx:111-118 | filtering twice with the same filters equals filtering once |
| `Table.SortingFlags` | Frontend/src/components/PeopleTable.jsx:19-68 | the seven columns are Profile, Name, Status, Role, Email, Teams, Actions in that order; Name and Status enable sorting, Actions leaves it unset, and the other four disable it |
| `Table.FilterOptionsMatchForm` | Frontend/src/components/PeopleTable.jsx:152-173 | each filter select has five options: "All" (empty) followed by the form's four roles or four teams |
| `Table.SetParam` | Frontend/src/components/PeopleTable.jsx:135-137 | URLSearchParams.set on a list without the key appends the new pair at the end |
| `Table.SetParamSpec` | Frontend/src/components/PeopleTable.jsx:135-137 | after set exactly one pair has the key and it carries the new value; it takes the place of the first old pair with the key when there was one; the pairs with other keys are the old ones, in order |
| `Table.QueryPairs` | Frontend/src/components/PeopleTable.jsx:133-139 | the three optional pairs have key query iff the search is set, role iff the role filter is set, team iff the team filter is set, in that order |
| `Table.Pair` | Frontend/src/components/PeopleTable.jsx:135-137 | the pairs one guarded `set` contributes all carry that filter's key and value, and their key list is the filter's `Present` key list |
| `Table.TableView.constructor` | Frontend/src/components/PeopleTable.jsx:13-17 | the view starts with empty search, role and team filters, no sorting, page index 0 and page size 10 |
| `Table.TableView.SetGlobalFilter` | Frontend/src/components/PeopleTable.jsx:148 | typing in the search box changes only the search text, and a changed search sends the table back to page 0 |
| `Table.TableView.SetRoleFilter` | Frontend/src/components/PeopleTable.jsx:154 | the role select changes only the role filter, and a changed filter sends the table back to page 0 |
| `Table.TableView.SetTeamFilter` | Frontend/src/components/PeopleTable.jsx:165 | the team select changes only the team filter, and a changed filter sends the table back to page 0 |
| `Table.TableView.QueryParams` | Frontend/src/components/PeopleTable.jsx:133-139 | the step-by-step builder yields the pairs query, role, team in that order, each present iff its filter is non-empty and carrying that filter's value, and no other pair |
| `Directory.Pick` | Frontend/src/pages/PeopleDirectory.jsx:20 | a random choice from a list is always an element of that list |
| `Directory.ToLower` | Frontend/src/pages/PeopleDirectory.jsx:13 | lower-casing keeps the length, leaves no upper-case letter, keeps every other character and shifts each upper-case letter to its lower-case form |
| `Directory.FirstToken` | Frontend/src/pages/PeopleDirectory.jsx:12 | the first word is a prefix of the name without spaces, ending at the name's end or at its first space |
| `Directory.SeedRecord` | Frontend/src/pages/PeopleDirectory.jsx:10-50 | one generated record has the seed shape (Active, a listed role, one listed team, email from the lower-cased first name) and carries the drawn full name, a photo, a birth date and research |
| `Directory.GenerateData` | Frontend/src/pages/PeopleDirectory.jsx:7-52 | for any random choices the seed has 100 records, each with the seed shape and the name drawn for its position |
| `Directory.SeedEmailLocalPart` | Frontend/src/pages/PeopleDirectory.jsx:11-13 | a generated email's local part has no space and no upper-case letter, and matches the name's first word up to case |
| `Directory.RoleVocabulary` | Frontend/src/pages/PeopleDirectory.jsx:26-43 | the generator's roles include the form's four plus three that neither the form nor the role filter offers; its teams are the form's teams |
| `Directory.RemoveAt` | Frontend/src/pages/PeopleDirectory.jsx:66-68 | the filter on index drops one record for an in-range index and none otherwise |
| `Directory.RemoveAtSpec` | Frontend/src/pages/PeopleDirectory.jsx:66-68 | an in-range index yields a store one shorter equal to the original without that position, order kept; any other index leaves the store unchanged |
| `Directory.UpdateByEmail` | Frontend/src/pages/PeopleDirectory.jsx:86-91 | update keeps the length; each record with newData's email becomes the spread of the record and newData, every other record is unchanged |
| `Directory.SameEmail` | Frontend/src/pages/PeopleDirectory.jsx:89 | two records match iff both lack an email, or both have one and the two emails are equal |
| `Directory.UpdateByEmailFields` | Frontend/src/pages/PeopleDirectory.jsx:86-91 | a matching record takes every field of newData and keeps its other fields; a non-matching record at any position is untouched |
| `Directory.UpdateNoMatch` | Frontend/src/pages/PeopleDirectory.jsx:88-90 | when no record has newData's email the store is identical |
| `Directory.EditedEmailIsLost` | Frontend/src/pages/PeopleDirectory.jsx:86-91 | saving an edit whose email no stored record holds leaves the whole store unchanged |
| `Directory.EditedEmailOverwritesHolder` | Frontend/src/pages/PeopleDirectory.jsx:86-91 | saving an edit whose new email another record already holds merges the edit into that record and keeps every record with a different email |
| `Directory.GeneratedFields` | Frontend/src/pages/PeopleDirectory.jsx:74-83 | the page generates exactly dateOfBirth, gender, nationality, contactNo and research for an added record |
| `Directory.CompleteRecord` | Frontend/src/pages/PeopleDirectory.jsx:72-84 | the added record has the form's keys plus the generated ones; generated fields override same-named form fields and every other form field is kept |
| `Directory.FormDefaults` | Frontend/src/pages/PeopleDirectory.jsx:129-137 | the form starts from the selected row when there is one, otherwise from the blank record, which normalisation leaves unchanged |
| `Directory.PhotoNeverSaved` | Frontend/src/pages/PeopleDirectory.jsx:70-91 | after the schema's parse, an added record has no profileImage and an edit leaves every stored photo as it was |
| `Directory.DeleteFromFilteredRow` | Frontend/src/pages/PeopleDirectory.jsx:66-68 | the delete of table row k removes store record k, while the clicked record lies at a store position at or after k, equal to k when no filter is set |
| `Directory.DeleteUnderFilterHitsWrongRecord` | Frontend/src/components/PeopleTable.jsx:111-121 | with a role filter showing only the second record, deleting row 0 removes the first record and keeps the one shown |
| `Directory.PeopleDirectory.constructor` | Frontend/src/pages/PeopleDirectory.jsx:54-58 | the page starts with the generated 100 records, no selection and the form closed (`FormShown`, the condition at PeopleDirectory.jsx:127, is false); every record's teams is a list |
| `Directory.PeopleDirectory.HandleEdit` | Frontend/src/pages/PeopleDirectory.jsx:60-64 | edit selects the row, sets editing, clears adding, makes `FormShown` true with the form seeded from the row, and keeps the store; every record still has a team list |
| `Directory.PeopleDirectory.HandleDelete` | Frontend/src/pages/PeopleDirectory.jsx:66-68 | delete removes the record at the index (or nothing when out of range) and changes no other state |
| `Directory.PeopleDirectory.OnAdd` | Frontend/src/pages/PeopleDirectory.jsx:118-121 | add clears the selection and sets adding, so `FormShown` holds and the form opens on the blank record; every record still has a team list |
| `Directory.PeopleDirectory.HandleSave` | Frontend/src/pages/PeopleDirectory.jsx:70-95 | in add mode one completed record is appended; otherwise the store becomes the update by email; afterwards editing and adding are both false, so `FormShown` is false, and every record still has a team list |
| `Directory.PeopleDirectory.HandleRowClick` | Frontend/src/pages/PeopleDirectory.jsx:97-99 | a row click selects the row and changes nothing else; every record still has a team list |
| `Directory.PeopleDirectory.HandleClosePanel` | Frontend/src/pages/PeopleDirectory.jsx:101-103 | closing the panel clears the selection and changes nothing else; every record still has a team list |
| `Directory.PeopleDirectory.HandleCancel` | Frontend/src/pages/PeopleDirectory.jsx:105-108 | cancel makes `FormShown` false and keeps the store and the selection; every record still has a team list |
| `Directory.PeopleDirectory.SubmitForm` | Frontend/src/pages/PeopleDirectory.jsx:127-141 | the outcome is the form's own submit; a rejected form leaves the page unchanged; an accepted one saves exactly the five schema fields (appended with generated fields, or merged by email) and the form closes |

## Left out

- Markup, styling, the modal, side panel, navigation bar, sidebar, layout, routing and dashboard have no behaviour to state.
- Sorting, the global text search, pagination, page count and the previous/next guards belong to the table library, whose code is not part of this model. The sorting and page-size state exist only as initial values.
- `Table.TableView.SetGlobalFilter`, `SetRoleFilter`, `SetTeamFilter`: the return to page 0 is the table library's automatic page-index reset (its default `autoResetPageIndex`), which the model performs in the setter. A reset caused by a change of the store's data is not modelled.
- `Table.TableView.QueryParams`: the model produces the key/value pairs only. Percent-encoding by URLSearchParams and the `history.replaceState` call are browser I/O.
- `Form.Editor.ChangeFile`: the FileReader read is asynchronous browser I/O. The model takes the read as complete and passes the data URL in. It does not capture a read that finishes after the form has closed.
- `Form.Validate`: email syntax is the predicate `isEmail`, standing for the schema library's regular expression.
- `Form.Editor.constructor`: the teams select at PeopleForm.jsx:170 maps over `defaultValues.teams` itself, so defaults without a team list make the first render throw and no form appears. The model states this as a precondition instead of a crash. The `[]` fallback of `Form.Normalise` is modelled, but no open form ever uses it.
- `Form.CheckField`: the schema library's text for a wrong type or an absent field is reduced to `InvalidType`.
- `Table.TeamsInclude`: in the source, `row.teams.includes` throws when a record has no team list and searches substrings when teams is a string. The model treats such a record as not including the team. `Directory.PeopleDirectory.Valid` shows the store never holds such a record.
- `Directory.SameEmail`: JavaScript `===` compares objects by reference. The model compares values structurally. Emails are strings, so the two agree.
- `Directory.ToLower`: only ASCII letters are lowered, while JavaScript lowers all of Unicode.
- The random generator's values (names, dates, countries, phone numbers, avatars, text) are opaque parameters. A choice from a list is an index reduced modulo the list's length. Numbers are integers, which is enough for the publication year.
- A click on the edit or delete icon also reaches the row's click handler (event bubbling), which selects the row. The model treats each handler as a separate call.
- Logging calls have no effect on state.

=== FILE: directory.dfy ===
/** The people-directory page: the in-memory record store seeded with generated
    people, its delete / add / update-by-email operations, and the small state
    machine (selected row, editing, adding) that decides whether the form is
    open and what it starts from. */
module Directory {
  import opened Js
  import Form
  import Table

  // ---------------------------------------------------------------------------
  // Seed data

  /** Number of people the page is seeded with. */
  const SeedSize: nat := 100
  const EmailDomain: string := "@untitledui.com"
  const Genders: seq<string> := ["Male", "Female", "Other"]
  const GeneratedRoles: seq<string> := [
    "Product Designer", "Product Manager", "Frontend Developer", "Backend Developer",
    "UX Designer", "UX Copywriter", "QA Engineer"
  ]
  const GeneratedTeams: seq<string> := ["Design", "Product", "Marketing", "Technology"]

  /** The random choices behind one generated person. Choices from a fixed list
      are indices, reduced modulo the list's length. */
  datatype SeedDraw = SeedDraw(
    fullName: string, dateOfBirth: string, gender: nat, nationality: string,
    contactNo: string, avatar: string, role: nat, team: nat,
    researchTitle: string, publicationYear: int, publicationName: string, researchAbstract: string)

  /** The random choices that complete a record added through the form. */
  datatype AddDraw = AddDraw(
    dateOfBirth: string, gender: nat, nationality: string, contactNo: string,
    researchTitle: string, publicationName: string, publicationYear: int, researchAbstract: string)

  /** `faker.helpers.arrayElement(options)`. */
  function Pick(options: seq<string>, k: nat): (s: string)
    requires |options| > 0
    ensures s in options
  {
    options[k % |options|]
  }

  /** `toLowerCase()` on the ASCII letters. */
  function ToLower(s: string): (r: string)
    ensures |r| == |s|
    ensures forall i :: 0 <= i < |s| ==> !('A' <= r[i] <= 'Z')
    ensures forall i :: 0 <= i < |s| && !('A' <= s[i] <= 'Z') ==> r[i] == s[i]
    ensures forall i :: 0 <= i < |s| && 'A' <= s[i] <= 'Z' ==> r[i] as int == s[i] as int + 32
  {
    if |s| == 0 then ""
    else
      var c := s[0];
      [if 'A' <= c <= 'Z' then (c as int + 32) as char else c] + ToLower(s[1..])
  }

  /** `s.split(" ")[0]`: the text before the first space, or all of `s`. */
  function FirstToken(s: string): (t: string)
    ensures t <= s
    ensures ' ' !in t
    ensures t == s || s[|t|] == ' '
  {
    if |s| == 0 || s[0] == ' ' then "" else [s[0]] + FirstToken(s[1..])
  }

  /** The nested `research` object. */
  function Research(title: string, publicationName: string, year: int, summary: string): Value
  {
    Obj(map["title" := Str(title), "publicationName" := Str(publicationName),
            "publicationYear" := Num(year), "abstract" := Str(summary)])
  }

  /** One generated person: active, in one team, with a listed role and the
      email built from the first word of the drawn name. */
  function SeedRecord(d: SeedDraw): (r: Record)
    ensures SeedShaped(r) && Get(r, "name") == Some(Str(d.fullName))
    ensures "profileImage" in r && "research" in r && "dateOfBirth" in r
  {
    map[
      "dateOfBirth" := Str(d.dateOfBirth),
      "gender" := Str(Pick(Genders, d.gender)),
      "nationality" := Str(d.nationality),
      "contactNo" := Str(d.contactNo),
      "profileImage" := Str(d.avatar),
      "name" := Str(d.fullName),
      "status" := Str("Active"),
      "role" := Str(Pick(GeneratedRoles, d.role)),
      "email" := Str(ToLower(FirstToken(d.fullName)) + EmailDomain),
      "teams" := Arr([Str(Pick(GeneratedTeams, d.team))]),
      "research" := Research(d.researchTitle, d.publicationName, d.publicationYear, d.researchAbstract)
    ]
  }

  /** `generateData()`, given the random choices for each of its slots: 100
      people, each with the seed shape and the name drawn for its slot. */
  function GenerateData(draw: nat -> SeedDraw): (r: seq<Record>)
    ensures |r| == SeedSize == 100
    ensures forall i :: 0 <= i < |r| ==> SeedShaped(r[i]) && Get(r[i], "name") == Some(Str(draw(i).fullName))
  {
    var r := seq(SeedSize, i requires 0 <= i < SeedSize => SeedRecord(draw(i)));
    assert forall i :: 0 <= i < SeedSize ==> r[i] == SeedRecord(draw(i));
    r
  }

  /** The shape every generated person has. */
  predicate SeedShaped(r: Record)
  {
    && Get(r, "status") == Some(Str("Active"))
    && Get(r, "role").Some? && Get(r, "role").value.Str? && Get(r, "role").value.s in GeneratedRoles
    && Get(r, "teams").Some? && Get(r, "teams").value.Arr? && |Get(r, "teams").value.items| == 1
    && Get(r, "teams").value.items[0].Str? && Get(r, "teams").value.items[0].s in GeneratedTeams
    && Get(r, "name").Some? && Get(r, "name").value.Str?
    && Get(r, "email") == Some(Str(ToLower(FirstToken(Get(r, "name").value.s)) + EmailDomain))
  }

  /** A generated email's local part has no space and no upper-case letter, and
      matches the name's first word letter for letter up to case. */
  lemma SeedEmailLocalPart(fullName: string)
    ensures var local := ToLower(FirstToken(fullName));
      && ' ' !in local
      && (forall i :: 0 <= i < |local| ==> !('A' <= local[i] <= 'Z'))
      && |local| <= |fullName|
      && (|local| == |fullName| || fullName[|local|] == ' ')
      && forall i :: 0 <= i < |local| && !('A' <= fullName[i] <= 'Z') ==> local[i] == fullName[i]
  {
  }

  /** The generator draws from more roles than the form and the role filter
      offer; its teams are exactly the form's teams. */
  lemma RoleVocabulary()
    ensures forall r :: r in Form.RoleOptions ==> r in GeneratedRoles
    ensures forall r :: r in ["UX Designer", "UX Copywriter", "QA Engineer"] ==>
      r in GeneratedRoles && r !in Form.RoleOptions && r !in Table.RoleFilterOptions
    ensures GeneratedTeams == Form.TeamOptions
  {
  }

  // ---------------------------------------------------------------------------
  // The store's operations

  /** `data.filter((_, index) => index !== rowIndex)`: one record fewer for an
      index inside the store, and nothing that was not there before. */
  function RemoveAt(data: seq<Record>, rowIndex: int): (r: seq<Record>)
    ensures |r| == if 0 <= rowIndex < |data| then |data| - 1 else |data|
  {
    if |data| == 0 then []
    else
      var n := |data| - 1;
      RemoveAt(data[..n], rowIndex) + (if n != rowIndex then [data[n]] else [])
  }

  /** An index inside the store removes exactly that record and keeps the rest in
      order; any other index leaves the store as it was. */
  lemma {:induction false} RemoveAtSpec(data: seq<Record>, rowIndex: int)
    ensures 0 <= rowIndex < |data| ==>
      |RemoveAt(data, rowIndex)| == |data| - 1 && RemoveAt(data, rowIndex) == data[..rowIndex] + data[rowIndex + 1..]
    ensures !(0 <= rowIndex < |data|) ==> RemoveAt(data, rowIndex) == data
  {
    if |data| > 0 {
      var n := |data| - 1;
      RemoveAtSpec(data[..n], rowIndex);
      if rowIndex == n {
        assert RemoveAt(data[..n], rowIndex) == data[..n];
        assert data[rowIndex + 1..] == [];
      } else if 0 <= rowIndex < n {
        assert data[..n][..rowIndex] == data[..rowIndex];
        assert data[..n][rowIndex + 1..] + [data[n]] == data[rowIndex + 1..];
      } else {
        assert data[..n] + [data[n]] == data;
      }
    }
  }

  /** `row.email === newData.email` (two absent emails are equal: both `undefined`). */
  predicate SameEmail(row: Record, newData: Record)
    ensures SameEmail(row, newData) <==>
      ("email" in row <==> "email" in newData) && ("email" in row ==> row["email"] == newData["email"])
  {
    Get(row, "email") == Get(newData, "email")
  }

  /** `data.map(row => row.email === newData.email ? {...row, ...newData} : row)`. */
  function UpdateByEmail(data: seq<Record>, newData: Record): (r: seq<Record>)
    ensures |r| == |data|
    ensures forall i :: 0 <= i < |data| ==>
      r[i] == if SameEmail(data[i], newData) then Merge(data[i], newData) else data[i]
  {
    if |data| == 0 then []
    else
      var n := |data| - 1;
      UpdateByEmail(data[..n], newData)
        + [if SameEmail(data[n], newData) then Merge(data[n], newData) else data[n]]
  }

  /** Update keeps the length and the position of every record; a record with
      another email is untouched, and a matching one takes every field of
      `newData` and keeps its own other fields. */
  lemma UpdateByEmailFields(data: seq<Record>, newData: Record, i: nat)
    requires i < |data|
    ensures |UpdateByEmail(data, newData)| == |data|
    ensures !SameEmail(data[i], newData) ==> UpdateByEmail(data, newData)[i] == data[i]
    ensures SameEmail(data[i], newData) ==>
      && UpdateByEmail(data, newData)[i].Keys == data[i].Keys + newData.Keys
      && (forall k :: k in newData ==> UpdateByEmail(data, newData)[i][k] == newData[k])
      && (forall k :: k in data[i] && k !in newData ==> UpdateByEmail(data, newData)[i][k] == data[i][k])
  {
  }

  /** When no record has `newData`'s email, update leaves the store identical. */
  lemma UpdateNoMatch(data: seq<Record>, newData: Record)
    requires forall i :: 0 <= i < |data| ==> !SameEmail(data[i], newData)
    ensures UpdateByEmail(data, newData) == data
  {
  }

  /** Editing a person's email to one no stored record holds: update matches on
      the new email, finds nobody, and the save changes nothing. */
  lemma EditedEmailIsLost(data: seq<Record>, edited: Record, newEmail: string)
    requires Get(edited, "email") == Some(Str(newEmail))
    requires forall i :: 0 <= i < |data| ==> Get(data[i], "email") != Some(Str(newEmail))
    ensures UpdateByEmail(data, edited) == data
  {
    UpdateNoMatch(data, edited);
  }

  /** Editing a person's email to one another record already holds: that other
      record takes the edited values, and every record with other emails is kept. */
  lemma EditedEmailOverwritesHolder(data: seq<Record>, edited: Record, newEmail: string, j: nat)
    requires Get(edited, "email") == Some(Str(newEmail))
    requires j < |data| && Get(data[j], "email") == Some(Str(newEmail))
    ensures UpdateByEmail(data, edited)[j] == Merge(data[j], edited)
    ensures forall i :: 0 <= i < |data| && Get(data[i], "email") != Some(Str(newEmail)) ==>
      UpdateByEmail(data, edited)[i] == data[i]
  {
  }

  /** The keys the page fills in for a record added through the form. */
  const GeneratedKeys: set<string> := {"dateOfBirth", "gender", "nationality", "contactNo", "research"}

  function GeneratedFields(g: AddDraw): (r: Record)
    ensures r.Keys == GeneratedKeys
  {
    map[
      "dateOfBirth" := Str(g.dateOfBirth),
      "gender" := Str(Pick(Genders, g.gender)),
      "nationality" := Str(g.nationality),
      "contactNo" := Str(g.contactNo),
      "research" := Research(g.researchTitle, g.publicationName, g.publicationYear, g.researchAbstract)
    ]
  }

  /** `{...newData, dateOfBirth, gender, nationality, contactNo, research}`: the
      generated fields win over same-named form fields, and every other form
      field is kept. */
  function CompleteRecord(newData: Record, g: AddDraw): (r: Record)
    ensures r.Keys == newData.Keys + GeneratedKeys
    ensures forall k :: k in GeneratedKeys ==> r[k] == GeneratedFields(g)[k]
    ensures forall k :: k in newData && k !in GeneratedKeys ==> r[k] == newData[k]
  {
    Merge(newData, GeneratedFields(g))
  }

  /** `selectedRow || blank`: the values the form is seeded with. The blank
      record needs no normalising. */
  function FormDefaults(selectedRow: Option<Record>): (r: Record)
    ensures selectedRow.Some? ==> r == selectedRow.value
    ensures selectedRow == None ==> r == Form.BlankRecord && Form.Normalise(r) == r
  {
    if selectedRow.Some? then selectedRow.value else Form.BlankRecord
  }

  /** What the form submits is stripped to the schema's five fields, so a photo
      chosen or removed in the form never reaches the store: an added person has
      no photo, and an edit leaves every stored photo as it was. */
  lemma PhotoNeverSaved(data: seq<Record>, values: Record, isEmail: string -> bool, g: AddDraw)
    requires Form.Validate(values, isEmail).Accepted?
    ensures "profileImage" !in CompleteRecord(Form.Validate(values, isEmail).data, g)
    ensures forall i :: 0 <= i < |data| ==>
      Get(UpdateByEmail(data, Form.Validate(values, isEmail).data)[i], "profileImage") == Get(data[i], "profileImage")
  {
    SchemaFieldsKeepPhotos(data, Form.Validate(values, isEmail).data, g);
  }

  lemma SchemaFieldsKeepPhotos(data: seq<Record>, saved: Record, g: AddDraw)
    requires saved.Keys == Form.SchemaFields
    ensures "profileImage" !in CompleteRecord(saved, g)
    ensures forall i :: 0 <= i < |data| ==>
      Get(UpdateByEmail(data, saved)[i], "profileImage") == Get(data[i], "profileImage")
  {
    assert "profileImage" !in Form.SchemaFields;
    assert "profileImage" !in GeneratedKeys;
    forall i | 0 <= i < |data|
      ensures Get(UpdateByEmail(data, saved)[i], "profileImage") == Get(data[i], "profileImage")
    {
      UpdateByEmailFields(data, saved, i);
    }
  }

  /** Every stored record's `teams` is a list of strings (so the team filter's
      `includes` always has a list to search). */
  ghost predicate TeamsListed(data: seq<Record>)
  {
    forall i :: 0 <= i < |data| ==> Form.StringList(Get(data[i], "teams"))
  }

  // ---------------------------------------------------------------------------
  // Delete from a filtered table

  /** An increasing list of positions never falls behind its own index. */
  lemma {:induction false} IncreasingAtLeastIndex(p: seq<nat>, k: nat)
    requires forall i, j :: 0 <= i < j < |p| ==> p[i] < p[j]
    requires k < |p|
    ensures p[k] >= k
  {
    if k > 0 {
      IncreasingAtLeastIndex(p, k - 1);
    }
  }

  /** The delete button of the table's k-th row passes k, and the store removes
      its own k-th record. The clicked record sits at store position
      `KeptPositions(...)[k]`, which is never before k, and is k itself whenever
      both filters are empty. */
  lemma DeleteFromFilteredRow(data: seq<Record>, roleFilter: string, teamFilter: string, k: nat)
    requires k < |Table.FilterRows(data, roleFilter, teamFilter)|
    ensures RemoveAt(data, k) == data[..k] + data[k + 1..]
    ensures var pos := Table.KeptPositions(data, roleFilter, teamFilter)[k];
      && k <= pos < |data|
      && Table.FilterRows(data, roleFilter, teamFilter)[k] == data[pos]
    ensures roleFilter == "" && teamFilter == "" ==>
      Table.KeptPositions(data, roleFilter, teamFilter)[k] == k
  {
    RemoveAtSpec(data, k);
    IncreasingAtLeastIndex(Table.KeptPositions(data, roleFilter, teamFilter), k);
    if roleFilter == "" && teamFilter == "" {
      Table.KeptPositionsEmptyFilter(data);
    }
  }

  /** With a role filter on, deleting the only row shown removes a different
      person: the table shows `designer` as row 0, and the store's record 0 is
      `manager`. */
  lemma DeleteUnderFilterHitsWrongRecord(manager: Record, designer: Record)
    requires Get(manager, "role") == Some(Str("Product Manager"))
    requires Get(designer, "role") == Some(Str("Product Designer"))
    ensures Table.FilterRows([manager, designer], "Product Designer", "") == [designer]
    ensures RemoveAt([manager, designer], 0) == [designer]
  {
    assert [manager, designer][..1] == [manager];
    assert [manager][..0] == [];
    RemoveAtSpec([manager, designer], 0);
  }

  // ---------------------------------------------------------------------------
  // The page's state

  class PeopleDirectory {
    var data: seq<Record>
    var selectedRow: Option<Record>
    var isEditing: bool
    var isAdding: bool

    ghost predicate Valid()
      reads this
    {
      TeamsListed(data)
    }

    /** The page as first mounted: seeded store, nothing selected, form closed. */
    constructor (draw: nat -> SeedDraw)
      ensures Valid()
      ensures data == GenerateData(draw) && |data| == SeedSize
      ensures selectedRow == None && !isEditing && !isAdding && !FormShown()
    {
      data := GenerateData(draw);
      selectedRow := None;
      isEditing, isAdding := false, false;
    }

    /** The form is on screen while editing or adding, and only then. */
    predicate FormShown()
      reads this
    {
      isEditing || isAdding
    }

    /** The edit icon: open the form on that row, in edit mode. */
    method HandleEdit(row: Record)
      requires Valid()
      modifies this
      ensures Valid()
      ensures selectedRow == Some(row) && isEditing && !isAdding
      ensures FormShown() && FormDefaults(selectedRow) == row
      ensures data == old(data)
    {
      selectedRow := Some(row);
      isEditing := true;
      isAdding := false;
    }

    /** The delete icon, with the row index the table passes. */
    method HandleDelete(rowIndex: int)
      requires Valid()
      modifies this
      ensures Valid()
      ensures data == RemoveAt(old(data), rowIndex)
      ensures 0 <= rowIndex < |old(data)| ==>
        |data| == |old(data)| - 1 && data == old(data)[..rowIndex] + old(data)[rowIndex + 1..]
      ensures !(0 <= rowIndex < |old(data)|) ==> data == old(data)
      ensures selectedRow == old(selectedRow) && isEditing == old(isEditing) && isAdding == old(isAdding)
    {
      RemoveAtSpec(data, rowIndex);
      data := RemoveAt(data, rowIndex);
    }

    /** The "Add Member" button: open the form on the blank record. */
    method OnAdd()
      requires Valid()
      modifies this
      ensures Valid()
      ensures selectedRow == None && isAdding && isEditing == old(isEditing)
      ensures FormShown() && FormDefaults(selectedRow) == Form.BlankRecord
      ensures data == old(data)
    {
      selectedRow := None;
      isAdding := true;
    }

    /** The form's save handler, called with values that passed the schema.
        Adding appends one completed record; otherwise the values are merged
        into every record with the same email. Either way the form closes. */
    method HandleSave(newData: Record, g: AddDraw)
      requires Valid() && Form.StringList(Get(newData, "teams"))
      modifies this
      ensures Valid()
      ensures old(isAdding) ==> data == old(data) + [CompleteRecord(newData, g)]
      ensures !old(isAdding) ==> data == UpdateByEmail(old(data), newData)
      ensures !isEditing && !isAdding && !FormShown()
      ensures selectedRow == old(selectedRow)
    {
      if isAdding {
        data := data + [CompleteRecord(newData, g)];
      } else {
        data := UpdateByEmail(data, newData);
      }
      isEditing := false;
      isAdding := false;
    }

    /** A row click: show that person in the side panel. */
    method HandleRowClick(row: Record)
      requires Valid()
      modifies this
      ensures Valid()
      ensures selectedRow == Some(row)
      ensures data == old(data) && isEditing == old(isEditing) && isAdding == old(isAdding)
    {
      selectedRow := Some(row);
    }

    /** Closing the side panel. */
    method HandleClosePanel()
      requires Valid()
      modifies this
      ensures Valid()
      ensures selectedRow == None
      ensures data == old(data) && isEditing == old(isEditing) && isAdding == old(isAdding)
    {
      selectedRow := None;
    }

    /** The form's cancel: close the form and keep the store. */
    method HandleCancel()
      requires Valid()
      modifies this
      ensures Valid()
      ensures !isEditing && !isAdding && !FormShown()
      ensures data == old(data) && selectedRow == old(selectedRow)
    {
      isEditing := false;
      isAdding := false;
    }

    /** Submitting an open form: the schema decides; the schema's five fields of
        accepted values are saved, rejected values leave the page as it was. */
    method SubmitForm(form: Form.Editor, isEmail: string -> bool, g: AddDraw) returns (o: Form.Outcome)
      requires Valid()
      modifies this
      ensures Valid()
      ensures o == Form.Validate(form.values, isEmail)
      ensures o.Rejected? ==>
        data == old(data) && isEditing == old(isEditing) && isAdding == old(isAdding)
      ensures o.Accepted? ==> o.data.Keys == Form.SchemaFields
      ensures o.Accepted? && old(isAdding) ==> data == old(data) + [CompleteRecord(o.data, g)]
      ensures o.Accepted? && !old(isAdding) ==> data == UpdateByEmail(old(data), o.data)
      ensures o.Accepted? ==> !FormShown()
      ensures selectedRow == old(selectedRow)
    {
      o := form.Submit(isEmail);
      if o.Accepted? {
        HandleSave(o.data, g);
      }
    }
  }
}

=== FILE: form.dfy ===
/** The create/edit form of the people directory: the five-field schema that
    gates a save, the normalisation of the values the form starts from, and the
    profile-photo preview the form keeps beside its values. */
module Form {
  import opened Js

  /** The placeholder shown when a record has no photo. */
  const DefaultAvatar: string := "/default-avatar.png"

  /** Values offered by the form's selects (each option's label equals its value). */
  const RoleOptions: seq<string> :=
    ["Product Designer", "Product Manager", "Frontend Developer", "Backend Developer"]
  const TeamOptions: seq<string> := ["Design", "Product", "Marketing", "Technology"]
  const StatusOptions: seq<string> := ["Active", "Inactive"]

  /** The keys the schema checks. */
  const SchemaFields: set<string> := {"name", "email", "role", "status", "teams"}

  /** What a failing field reports: a value of the wrong type (an absent field
      included), a too-short string or list with the schema's message, an email
      rejected by the syntax check, or a status outside the enumeration. */
  datatype FieldError =
    | InvalidType
    | TooSmall(message: string)
    | InvalidEmail(message: string)
    | InvalidEnum(options: seq<string>)

  /** The outcome of submitting the form: the values handed to the save
      handler, or the errors of every failing field. */
  datatype Outcome = Accepted(data: Record) | Rejected(errors: map<string, FieldError>)

  // ---------------------------------------------------------------------------
  // The schema, field by field

  /** `z.string().min(1, message)`. */
  function CheckNonEmptyString(v: Option<Value>, message: string): (e: Option<FieldError>)
    ensures e == None <==> NonEmptyString(v)
    ensures e.Some? && v.Some? && v.value.Str? ==> e == Some(TooSmall(message))
    ensures e.Some? && !(v.Some? && v.value.Str?) ==> e == Some(InvalidType)
  {
    match v
    case Some(Str(s)) => if |s| >= 1 then None else Some(TooSmall(message))
    case _ => Some(InvalidType)
  }

  /** `z.string().email(...)`; the email syntax itself is the predicate `isEmail`. */
  function CheckEmail(v: Option<Value>, isEmail: string -> bool): (e: Option<FieldError>)
    ensures e == None <==> v.Some? && v.value.Str? && isEmail(v.value.s)
    ensures e.Some? && v.Some? && v.value.Str? ==> e == Some(InvalidEmail("Invalid email address"))
    ensures e.Some? && !(v.Some? && v.value.Str?) ==> e == Some(InvalidType)
  {
    match v
    case Some(Str(s)) => if isEmail(s) then None else Some(InvalidEmail("Invalid email address"))
    case _ => Some(InvalidType)
  }

  /** `z.enum(["Active", "Inactive"])`. */
  function CheckStatus(v: Option<Value>): (e: Option<FieldError>)
    ensures e == None <==> v == Some(Str("Active")) || v == Some(Str("Inactive"))
    ensures e.Some? && v.Some? && v.value.Str? ==> e == Some(InvalidEnum(["Active", "Inactive"]))
    ensures e.Some? && !(v.Some? && v.value.Str?) ==> e == Some(InvalidType)
  {
    match v
    case Some(Str(s)) => if s in StatusOptions then None else Some(InvalidEnum(StatusOptions))
    case _ => Some(InvalidType)
  }

  /** `z.array(z.string()).min(1, ...)`: the length is checked before the items. */
  function CheckTeams(v: Option<Value>): (e: Option<FieldError>)
    ensures e == None <==> StringList(v) && |v.value.items| >= 1
    ensures v == Some(Arr([])) ==> e == Some(TooSmall("At least one team is required"))
    ensures e.Some? && e != Some(TooSmall("At least one team is required")) ==> e == Some(InvalidType)
  {
    match v
    case Some(Arr(items)) =>
      if |items| < 1 then Some(TooSmall("At least one team is required"))
      else if exists i :: 0 <= i < |items| && !items[i].Str? then Some(InvalidType)
      else None
    case _ => Some(InvalidType)
  }

  /** The check the schema applies to one of its fields; a key outside the
      schema is never checked. */
  function CheckField(field: string, values: Record, isEmail: string -> bool): (e: Option<FieldError>)
    ensures field !in SchemaFields ==> e == None
    ensures field == "name" ==> (e == None <==> NonEmptyString(Get(values, "name")))
    ensures field == "email" ==> (e == None <==>
      Get(values, "email").Some? && Get(values, "email").value.Str? && isEmail(Get(values, "email").value.s))
    ensures field == "role" ==> (e == None <==> NonEmptyString(Get(values, "role")))
    ensures field == "status" ==> (e == None <==>
      Get(values, "status") == Some(Str("Active")) || Get(values, "status") == Some(Str("Inactive")))
    ensures field == "teams" ==> (e == None <==>
      StringList(Get(values, "teams")) && |Get(values, "teams").value.items| >= 1)
    ensures e == None && field in SchemaFields ==> field in values
  {
    if field == "name" then CheckNonEmptyString(Get(values, "name"), "Name is required")
    else if field == "email" then CheckEmail(Get(values, "email"), isEmail)
    else if field == "role" then CheckNonEmptyString(Get(values, "role"), "Role is required")
    else if field == "status" then CheckStatus(Get(values, "status"))
    else if field == "teams" then CheckTeams(Get(values, "teams"))
    else None
  }

  /** The error map the form renders, one entry per failing field: every field
      is checked, so one failure never hides another. */
  function Errors(values: Record, isEmail: string -> bool): (errs: map<string, FieldError>)
    ensures errs.Keys <= SchemaFields
    ensures forall f :: f in SchemaFields ==>
      (f in errs <==> CheckField(f, values, isEmail).Some?)
    ensures forall f :: f in errs ==> CheckField(f, values, isEmail) == Some(errs[f])
  {
    map f | f in SchemaFields && CheckField(f, values, isEmail).Some? :: CheckField(f, values, isEmail).value
  }

  /** The object `z.object` parses to: the schema's fields, every other key stripped. */
  function SchemaPart(values: Record): (r: Record)
    ensures r.Keys == values.Keys * SchemaFields
    ensures forall k :: k in r ==> r[k] == values[k]
  {
    map k | k in values && k in SchemaFields :: values[k]
  }

  /** Submitting the form: when no field fails, the save handler receives the
      five schema fields and nothing else. */
  function Validate(values: Record, isEmail: string -> bool): (o: Outcome)
    ensures o.Accepted? ==> o.data.Keys == SchemaFields && forall k :: k in o.data ==> k in values && o.data[k] == values[k]
    ensures o.Rejected? ==> o.errors != map[] && o.errors == Errors(values, isEmail)
  {
    var errs := Errors(values, isEmail);
    if errs == map[] then Accepted(SchemaPart(values)) else Rejected(errs)
  }

  // ---------------------------------------------------------------------------
  // The schema stated field by field, as a reference for Validate

  predicate NonEmptyString(v: Option<Value>)
  {
    v.Some? && v.value.Str? && |v.value.s| > 0
  }

  /** A list of strings: the shape every stored record's `teams` has. */
  predicate StringList(v: Option<Value>)
  {
    v.Some? && v.value.Arr? && forall i :: 0 <= i < |v.value.items| ==> v.value.items[i].Str?
  }

  /** The five conditions under which the form accepts its values. */
  predicate Conforms(values: Record, isEmail: string -> bool)
  {
    && NonEmptyString(Get(values, "name"))
    && Get(values, "email").Some? && Get(values, "email").value.Str?
    && isEmail(Get(values, "email").value.s)
    && NonEmptyString(Get(values, "role"))
    && (Get(values, "status") == Some(Str("Active")) || Get(values, "status") == Some(Str("Inactive")))
    && StringList(Get(values, "teams")) && |Get(values, "teams").value.items| >= 1
  }

  /** The form accepts exactly the values meeting all five conditions. */
  lemma ValidateAcceptsIff(values: Record, isEmail: string -> bool)
    ensures Validate(values, isEmail).Accepted? <==> Conforms(values, isEmail)
  {
  }

  /** Whether a field fails, and how, depends on that field's value alone. */
  lemma ErrorsIndependent(v1: Record, v2: Record, field: string, isEmail: string -> bool)
    requires field in SchemaFields
    requires Get(v1, field) == Get(v2, field)
    ensures field in Errors(v1, isEmail) <==> field in Errors(v2, isEmail)
    ensures field in Errors(v1, isEmail) ==> Errors(v1, isEmail)[field] == Errors(v2, isEmail)[field]
  {
  }

  /** The message each field reports when it is present but fails. */
  lemma ErrorMessages(values: Record, isEmail: string -> bool)
    ensures Get(values, "name") == Some(Str("")) ==>
      Errors(values, isEmail)["name"] == TooSmall("Name is required")
    ensures Get(values, "role") == Some(Str("")) ==>
      Errors(values, isEmail)["role"] == TooSmall("Role is required")
    ensures Get(values, "teams") == Some(Arr([])) ==>
      Errors(values, isEmail)["teams"] == TooSmall("At least one team is required")
    ensures forall e :: Get(values, "email") == Some(Str(e)) && !isEmail(e) ==>
      Errors(values, isEmail)["email"] == InvalidEmail("Invalid email address")
    ensures forall s :: Get(values, "status") == Some(Str(s)) && s != "Active" && s != "Inactive" ==>
      Errors(values, isEmail)["status"] == InvalidEnum(["Active", "Inactive"])
  {
  }

  /** The schema does not tie `role` or `teams` to the select options: a role
      the form never offers passes, and so does a team name outside the list. */
  lemma SchemaIgnoresOptions(isEmail: string -> bool, email: string)
    requires isEmail(email)
    ensures "QA Engineer" !in RoleOptions && "Sales" !in TeamOptions
    ensures Validate(map["name" := Str("Ada"), "email" := Str(email), "role" := Str("QA Engineer"),
                         "status" := Str("Active"), "teams" := Arr([Str("Sales")])], isEmail).Accepted?
  {
  }

  /** Accepted values carry a non-empty list of team names. */
  lemma AcceptedTeamsListed(values: Record, isEmail: string -> bool)
    requires Validate(values, isEmail).Accepted?
    ensures StringList(Get(values, "teams")) && |Get(values, "teams").value.items| >= 1
  {
  }

  // ---------------------------------------------------------------------------
  // The values the form starts from

  /** `{...defaultValues, teams, role, status}` with the three fallbacks. */
  function Normalise(defaults: Record): (r: Record)
    ensures r.Keys == defaults.Keys + {"teams", "role", "status"}
    ensures forall k :: k in defaults && k !in {"teams", "role", "status"} ==> r[k] == defaults[k]
    ensures r["teams"].Arr?
    ensures Get(defaults, "teams").Some? && Get(defaults, "teams").value.Arr? ==> r["teams"] == defaults["teams"]
    ensures !(Get(defaults, "teams").Some? && Get(defaults, "teams").value.Arr?) ==> r["teams"] == Arr([])
    ensures Truthy(Get(defaults, "role")) ==> r["role"] == defaults["role"]
    ensures !Truthy(Get(defaults, "role")) ==> r["role"] == Str("")
    ensures Truthy(Get(r, "status"))
    ensures Truthy(Get(defaults, "status")) ==> r["status"] == defaults["status"]
    ensures !Truthy(Get(defaults, "status")) ==> r["status"] == Str("Active")
  {
    var teams := match Get(defaults, "teams") case Some(Arr(items)) => Arr(items) case _ => Arr([]);
    var role := if Truthy(Get(defaults, "role")) then defaults["role"] else Str("");
    var status := if Truthy(Get(defaults, "status")) then defaults["status"] else Str("Active");
    defaults + map["teams" := teams, "role" := role, "status" := status]
  }

  /** Normalising values the form already normalised changes nothing. */
  lemma NormaliseIdempotent(defaults: Record)
    ensures Normalise(Normalise(defaults)) == Normalise(defaults)
  {
  }

  // ---------------------------------------------------------------------------
  // The photo preview

  /** The preview the form opens with: the record's own photo when it has one. */
  function InitialPreview(defaults: Record): (p: Value)
    ensures Truthy(Some(p))
    ensures p != Str(DefaultAvatar) ==> Get(defaults, "profileImage") == Some(p)
    ensures Truthy(Get(defaults, "profileImage")) ==> Some(p) == Get(defaults, "profileImage")
  {
    if Truthy(Get(defaults, "profileImage")) then defaults["profileImage"] else Str(DefaultAvatar)
  }

  /** One open form: the values it will submit and the photo it shows. */
  class Editor {
    var values: Record
    var profileImage: Value
    const isEditing: bool

    /** Opening the form. The teams select reads `defaults.teams` as a list
        before normalisation, so the form only comes up when that is a list;
        the record's own list is then kept. */
    constructor (defaults: Record, isEditing: bool)
      requires Get(defaults, "teams").Some? && Get(defaults, "teams").value.Arr?
      ensures values == Normalise(defaults) && values["teams"] == defaults["teams"]
      ensures profileImage == InitialPreview(defaults)
      ensures this.isEditing == isEditing
      ensures CanRemovePhoto() <==>
        isEditing && Truthy(Get(defaults, "profileImage")) && defaults["profileImage"] != Str(DefaultAvatar)
    {
      values := Normalise(defaults);
      profileImage := InitialPreview(defaults);
      this.isEditing := isEditing;
    }

    /** The remove-photo button is offered only on an edit whose preview is not the placeholder. */
    predicate CanRemovePhoto()
      reads this
    {
      isEditing && profileImage != Str(DefaultAvatar)
    }

    /** Remove-photo: back to the placeholder, with an empty photo in the values. */
    method RemovePhoto()
      requires CanRemovePhoto()
      modifies this
      ensures profileImage == Str(DefaultAvatar) && !CanRemovePhoto()
      ensures values == old(values)["profileImage" := Str("")]
    {
      profileImage := Str(DefaultAvatar);
      values := values["profileImage" := Str("")];
    }

    /** A file selection. `selected` is the data URL the file reads as, or `None`
        when nothing was chosen; the read is taken to have completed. */
    method ChangeFile(selected: Option<string>)
      modifies this
      ensures selected == None ==> values == old(values) && profileImage == old(profileImage)
      ensures selected.Some? ==>
        profileImage == Str(selected.value) && values == old(values)["profileImage" := Str(selected.value)]
      ensures selected.Some? ==> (CanRemovePhoto() <==> isEditing && selected.value != DefaultAvatar)
    {
      if selected.Some? {
        profileImage := Str(selected.value);
        values := values["profileImage" := Str(selected.value)];
      }
    }

    /** A field edit (`setValue` from a select, or typing into an input). */
    method SetValue(field: string, v: Value)
      modifies this
      ensures values == old(values)[field := v] && profileImage == old(profileImage)
    {
      values := values[field := v];
    }

    /** Submit: the outcome the save handler or the error messages receive. */
    method Submit(isEmail: string -> bool) returns (o: Outcome)
      ensures o == Validate(values, isEmail)
      ensures o.Accepted? <==> Conforms(values, isEmail)
      ensures o.Accepted? ==> o.data.Keys == SchemaFields && forall k :: k in o.data ==> k in values && o.data[k] == values[k]
      ensures o.Accepted? ==> "profileImage" !in o.data
      ensures o.Rejected? ==> forall f :: f in SchemaFields ==>
        (f in o.errors <==> CheckField(f, values, isEmail).Some?)
    {
      o := Validate(values, isEmail);
      ValidateAcceptsIff(values, isEmail);
    }
  }

  /** The values the form opens with when it adds a new person. */
  const BlankRecord: Record :=
    map["name" := Str(""), "email" := Str(""), "role" := Str(""), "status" := Str("Active"), "teams" := Arr([])]

  /** A form opened on the blank record and submitted untouched reports name,
      role and teams as failing, each with its own message, and accepts the status. */
  lemma BlankFormErrors(isEmail: string -> bool)
    ensures Normalise(BlankRecord) == BlankRecord
    ensures Errors(BlankRecord, isEmail)["name"] == TooSmall("Name is required")
    ensures Errors(BlankRecord, isEmail)["role"] == TooSmall("Role is required")
    ensures Errors(BlankRecord, isEmail)["teams"] == TooSmall("At least one team is required")
    ensures "status" !in Errors(BlankRecord, isEmail)
  {
  }
}

=== FILE: js.dfy ===
/** The slice of JavaScript's object model that the people directory relies on:
    plain values, records as string-keyed maps, truthiness and the shallow
    object spread `{...a, ...b}`. */
module Js {

  datatype Option<+T> = None | Some(value: T)

  /** A JavaScript value as it occurs in a person record. Numbers are the
      integers the directory stores (a publication year). */
  datatype Value =
    | Null
    | Bool(b: bool)
    | Num(n: int)
    | Str(s: string)
    | Arr(items: seq<Value>)
    | Obj(fields: map<string, Value>)

  /** A plain object: an absent key reads as `undefined`. */
  type Record = map<string, Value>

  /** `r[key]`, with `None` standing for `undefined`. */
  function Get(r: Record, key: string): Option<Value>
  {
    if key in r then Some(r[key]) else None
  }

  /** JavaScript truthiness: `undefined`, `null`, `false`, `0` and `""` are falsy. */
  predicate Truthy(v: Option<Value>)
  {
    match v
    case None => false
    case Some(Null) => false
    case Some(Bool(b)) => b
    case Some(Num(n)) => n != 0
    case Some(Str(s)) => s != ""
    case Some(Arr(_)) => true
    case Some(Obj(_)) => true
  }

  /** The shallow spread `{...row, ...patch}`: every key of either side is
      present, `patch` wins where both have a key, and `row` keeps the rest. */
  function Merge(row: Record, patch: Record): (r: Record)
    ensures r.Keys == row.Keys + patch.Keys
    ensures forall k :: k in patch ==> r[k] == patch[k]
    ensures forall k :: k in row && k !in patch ==> r[k] == row[k]
  {
    row + patch
  }
}

=== FILE: table.dfy ===
/** The directory's table: the role/team filter applied to the store before the
    table library sees it, the view state the table keeps, the column
    configuration, and the projection of the filters into the page's query string. */
module Table {
  import opened Js
  import Form

  // ---------------------------------------------------------------------------
  // The structured filter

  /** `row.teams.includes(team)`; a record without a team list includes nothing. */
  predicate TeamsInclude(row: Record, team: string)
  {
    match Get(row, "teams")
    case Some(Arr(items)) => Str(team) in items
    case _ => false
  }

  /** The filter's test for one record: an empty filter lets every record through. */
  predicate Keep(row: Record, roleFilter: string, teamFilter: string)
  {
    && (roleFilter == "" || Get(row, "role") == Some(Str(roleFilter)))
    && (teamFilter == "" || TeamsInclude(row, teamFilter))
  }

  /** A record passes when each filter is empty or matches it: the role filter
      equals its role, and the team filter is one of the strings in its team
      list. A record without a team list passes only an empty team filter. */
  lemma KeepMeaning(row: Record, roleFilter: string, teamFilter: string)
    ensures roleFilter == "" && teamFilter == "" ==> Keep(row, roleFilter, teamFilter)
    ensures Keep(row, roleFilter, teamFilter) <==>
      && (roleFilter == "" || ("role" in row && row["role"] == Str(roleFilter)))
      && (teamFilter == "" ||
          ("teams" in row && row["teams"].Arr? &&
           exists i :: 0 <= i < |row["teams"].items| && row["teams"].items[i] == Str(teamFilter)))
  {
  }

  /** `data.filter(row => Keep(row))`: the records the table is built from. */
  function FilterRows(data: seq<Record>, roleFilter: string, teamFilter: string): (r: seq<Record>)
    ensures |r| <= |data|
    ensures forall k :: 0 <= k < |r| ==> r[k] in data && Keep(r[k], roleFilter, teamFilter)
  {
    if |data| == 0 then []
    else
      var last := data[|data| - 1];
      FilterRows(data[..|data| - 1], roleFilter, teamFilter)
        + (if Keep(last, roleFilter, teamFilter) then [last] else [])
  }

  /** The position in `data` of every record `FilterRows` keeps, in order: the
      k-th filtered record is `data[KeptPositions(...)[k]]`. */
  function KeptPositions(data: seq<Record>, roleFilter: string, teamFilter: string): (p: seq<nat>)
    ensures |p| == |FilterRows(data, roleFilter, teamFilter)|
    ensures forall k :: 0 <= k < |p| ==>
      p[k] < |data| && data[p[k]] == FilterRows(data, roleFilter, teamFilter)[k]
    ensures forall j, k :: 0 <= j < k < |p| ==> p[j] < p[k]
  {
    if |data| == 0 then []
    else
      var n := |data| - 1;
      assert data[..n][..] == data[..n];
      KeptPositions(data[..n], roleFilter, teamFilter)
        + (if Keep(data[n], roleFilter, teamFilter) then [n] else [])
  }

  /** Every store position whose record passes the filter is kept, and no other:
      a record that occurs twice in the store occurs twice in the table. */
  lemma {:induction false} KeptPositionsComplete(data: seq<Record>, roleFilter: string, teamFilter: string)
    ensures forall i :: 0 <= i < |data| ==>
      (i in KeptPositions(data, roleFilter, teamFilter) <==> Keep(data[i], roleFilter, teamFilter))
  {
    if |data| > 0 {
      var n := |data| - 1;
      var front := KeptPositions(data[..n], roleFilter, teamFilter);
      var last: seq<nat> := if Keep(data[n], roleFilter, teamFilter) then [n] else [];
      assert KeptPositions(data, roleFilter, teamFilter) == front + last;
      KeptPositionsComplete(data[..n], roleFilter, teamFilter);
      forall i | 0 <= i < |data|
        ensures i in front + last <==> Keep(data[i], roleFilter, teamFilter)
      {
        AppendedMembership(front, n, Keep(data[n], roleFilter, teamFilter), i);
        if i < n {
          assert data[..n][i] == data[i];
        }
      }
    }
  }

  /** Membership in a list of positions below `n`, with `n` perhaps appended. */
  lemma AppendedMembership(front: seq<nat>, n: nat, b: bool, i: nat)
    requires forall k :: 0 <= k < |front| ==> front[k] < n
    ensures i in front + (if b then [n] else []) <==> (i < n && i in front) || (b && i == n)
  {
  }

  /** A record is kept exactly when it is in the store and passes both filters. */
  lemma {:induction false} FilterMembership(data: seq<Record>, roleFilter: string, teamFilter: string, x: Record)
    ensures x in FilterRows(data, roleFilter, teamFilter) <==> x in data && Keep(x, roleFilter, teamFilter)
  {
    if |data| > 0 {
      var n := |data| - 1;
      FilterMembership(data[..n], roleFilter, teamFilter, x);
      assert data == data[..n] + [data[n]];
    }
  }

  /** The filter invents and duplicates nothing: every record occurs at most as
      often as in the store. */
  lemma {:induction false} FilterNoDuplicates(data: seq<Record>, roleFilter: string, teamFilter: string)
    ensures multiset(FilterRows(data, roleFilter, teamFilter)) <= multiset(data)
  {
    if |data| > 0 {
      var n := |data| - 1;
      FilterNoDuplicates(data[..n], roleFilter, teamFilter);
      MultisetStep(data, FilterRows(data[..n], roleFilter, teamFilter), Keep(data[n], roleFilter, teamFilter));
    }
  }

  /** Extending both sides by the last element, or only the larger side, keeps
      multiset containment. */
  lemma MultisetStep<T>(data: seq<T>, kept: seq<T>, keep: bool)
    requires |data| > 0 && multiset(kept) <= multiset(data[..|data| - 1])
    ensures multiset(kept + if keep then [data[|data| - 1]] else []) <= multiset(data)
  {
    assert data == data[..|data| - 1] + [data[|data| - 1]];
  }

  /** With both filters empty the table shows the store as it is. */
  lemma {:induction false} FilterEmptyIsIdentity(data: seq<Record>)
    ensures FilterRows(data, "", "") == data
  {
    if |data| > 0 {
      var n := |data| - 1;
      FilterEmptyIsIdentity(data[..n]);
      assert data == data[..n] + [data[n]];
    }
  }

  /** With both filters empty, the k-th row of the table is the k-th record of the store. */
  lemma {:induction false} KeptPositionsEmptyFilter(data: seq<Record>)
    ensures |KeptPositions(data, "", "")| == |data|
    ensures forall k :: 0 <= k < |data| ==> KeptPositions(data, "", "")[k] == k
  {
    if |data| > 0 {
      KeptPositionsEmptyFilter(data[..|data| - 1]);
    }
  }

  /** Filtering distributes over concatenation. */
  lemma {:induction false} FilterAppend(a: seq<Record>, b: seq<Record>, roleFilter: string, teamFilter: string)
    ensures FilterRows(a + b, roleFilter, teamFilter)
         == FilterRows(a, roleFilter, teamFilter) + FilterRows(b, roleFilter, teamFilter)
  {
    if |b| == 0 {
      assert a + b == a;
    } else {
      var n := |b| - 1;
      FilterAppend(a, b[..n], roleFilter, teamFilter);
      assert (a + b)[..|a + b| - 1] == a + b[..n];
    }
  }

  /** Applying the same filter twice is applying it once. */
  lemma {:induction false} FilterIdempotent(data: seq<Record>, roleFilter: string, teamFilter: string)
    ensures FilterRows(FilterRows(data, roleFilter, teamFilter), roleFilter, teamFilter)
         == FilterRows(data, roleFilter, teamFilter)
  {
    if |data| > 0 {
      var n := |data| - 1;
      var last := data[n];
      var tail := if Keep(last, roleFilter, teamFilter) then [last] else [];
      var front := FilterRows(data[..n], roleFilter, teamFilter);
      assert FilterRows(data, roleFilter, teamFilter) == front + tail;
      FilterIdempotent(data[..n], roleFilter, teamFilter);
      FilterAppend(front, tail, roleFilter, teamFilter);
      FilterSingle(last, roleFilter, teamFilter);
      assert FilterRows(tail, roleFilter, teamFilter) == tail;
    }
  }

  /** A one-record list is kept whole or dropped whole. */
  lemma FilterSingle(x: Record, roleFilter: string, teamFilter: string)
    ensures FilterRows([x], roleFilter, teamFilter) == if Keep(x, roleFilter, teamFilter) then [x] else []
  {
    assert [x][..0] == [];
  }

  // ---------------------------------------------------------------------------
  // Columns and select options

  /** One column of the table: its header, the record key it shows, and its
      `enableSorting` flag (`None` where the column leaves it unset). */
  datatype Column = Column(header: string, accessorKey: string, enableSorting: Option<bool>)

  const Columns: seq<Column> := [
    Column("Profile", "profileImage", Some(false)),
    Column("Name", "name", Some(true)),
    Column("Status", "status", Some(true)),
    Column("Role", "role", Some(false)),
    Column("Email", "email", Some(false)),
    Column("Teams", "teams", Some(false)),
    Column("Actions", "actions", None)
  ]

  /** Name and Status switch sorting on; Profile, Role, Email and Teams switch it
      off; only Actions leaves the flag to the table library. */
  lemma SortingFlags()
    ensures |Columns| == 7
    ensures [Columns[0].header, Columns[1].header, Columns[2].header, Columns[3].header,
             Columns[4].header, Columns[5].header, Columns[6].header]
         == ["Profile", "Name", "Status", "Role", "Email", "Teams", "Actions"]
    ensures forall i :: 0 <= i < |Columns| ==>
      Columns[i].enableSorting
        == if Columns[i].header == "Name" || Columns[i].header == "Status" then Some(true)
           else if Columns[i].header == "Actions" then None
           else Some(false)
  {
  }

  /** The filter selects: "All" (the empty value) and then four values each. */
  const RoleFilterOptions: seq<string> :=
    ["", "Product Designer", "Product Manager", "Frontend Developer", "Backend Developer"]
  const TeamFilterOptions: seq<string> := ["", "Design", "Product", "Marketing", "Technology"]

  /** The filter selects offer "All" followed by exactly the form's four roles and four teams. */
  lemma FilterOptionsMatchForm()
    ensures |RoleFilterOptions| == 5 && RoleFilterOptions == [""] + Form.RoleOptions
    ensures |TeamFilterOptions| == 5 && TeamFilterOptions == [""] + Form.TeamOptions
  {
  }

  // ---------------------------------------------------------------------------
  // The query string

  /** One `key=value` pair of a URLSearchParams list. */
  datatype Param = Param(key: string, value: string)

  function Keys(ps: seq<Param>): (ks: seq<string>)
    ensures |ks| == |ps| && forall i :: 0 <= i < |ps| ==> ks[i] == ps[i].key
  {
    if |ps| == 0 then [] else [ps[0].key] + Keys(ps[1..])
  }

  /** The pairs whose key is not `key`, in their order. */
  function DropKey(ps: seq<Param>, key: string): (r: seq<Param>)
    ensures forall i :: 0 <= i < |r| ==> r[i].key != key
  {
    if |ps| == 0 then []
    else if ps[0].key == key then DropKey(ps[1..], key)
    else [ps[0]] + DropKey(ps[1..], key)
  }

  /** A key that is not the head's is in the tail. */
  lemma KeyInTail(ps: seq<Param>, key: string)
    requires exists i :: 0 <= i < |ps| && ps[i].key == key
    requires ps[0].key != key
    ensures exists i :: 0 <= i < |ps[1..]| && ps[1..][i].key == key
  {
    var i :| 0 <= i < |ps| && ps[i].key == key;
    assert ps[1..][i - 1] == ps[i];
  }

  /** The position of the first pair with `key`. */
  function FirstIndex(ps: seq<Param>, key: string): (j: nat)
    requires exists i :: 0 <= i < |ps| && ps[i].key == key
    ensures j < |ps| && ps[j].key == key
    ensures forall i :: 0 <= i < j ==> ps[i].key != key
  {
    if ps[0].key == key then 0
    else
      KeyInTail(ps, key);
      1 + FirstIndex(ps[1..], key)
  }

  /** `params.set(key, value)`: the first pair with `key` takes the value in its
      place and every later pair with `key` is removed; with no such pair, one
      is appended. */
  function SetParam(ps: seq<Param>, key: string, value: string): (r: seq<Param>)
    ensures (forall i :: 0 <= i < |ps| ==> ps[i].key != key) ==> r == ps + [Param(key, value)]
  {
    if forall i :: 0 <= i < |ps| ==> ps[i].key != key then ps + [Param(key, value)]
    else ReplaceFirst(ps, key, value)
  }

  function ReplaceFirst(ps: seq<Param>, key: string, value: string): (r: seq<Param>)
    requires exists i :: 0 <= i < |ps| && ps[i].key == key
  {
    if ps[0].key == key then [Param(key, value)] + DropKey(ps[1..], key)
    else
      KeyInTail(ps, key);
      [ps[0]] + ReplaceFirst(ps[1..], key, value)
  }

  /** `ReplaceFirst` keeps the pairs before the first `key` pair, puts the new
      pair in its place, and drops `key` from the rest. */
  lemma {:induction false} ReplaceFirstSplice(ps: seq<Param>, key: string, value: string)
    requires exists i :: 0 <= i < |ps| && ps[i].key == key
    ensures ReplaceFirst(ps, key, value)
         == ps[..FirstIndex(ps, key)] + [Param(key, value)] + DropKey(ps[FirstIndex(ps, key) + 1..], key)
  {
    if ps[0].key == key {
      assert ps[..0] == [];
    } else {
      KeyInTail(ps, key);
      var tail := ps[1..];
      var j := FirstIndex(tail, key);
      var p := Param(key, value);
      var rest := DropKey(tail[j + 1..], key);
      assert FirstIndex(ps, key) == j + 1;
      assert ReplaceFirst(tail, key, value) == tail[..j] + [p] + rest by {
        ReplaceFirstSplice(tail, key, value);
      }
      assert ReplaceFirst(ps, key, value) == [ps[0]] + ReplaceFirst(tail, key, value);
      ConsSplice(ps, j, p, rest);
    }
  }

  /** A list without `key` loses nothing to `DropKey`. */
  lemma {:induction false} DropKeyAbsent(ps: seq<Param>, key: string)
    requires forall i :: 0 <= i < |ps| ==> ps[i].key != key
    ensures DropKey(ps, key) == ps
  {
    if |ps| > 0 {
      DropKeyAbsent(ps[1..], key);
    }
  }

  /** Dropping a key distributes over concatenation. */
  lemma {:induction false} DropKeyAppend(a: seq<Param>, b: seq<Param>, key: string)
    ensures DropKey(a + b, key) == DropKey(a, key) + DropKey(b, key)
  {
    if |a| == 0 {
      assert a + b == b;
    } else {
      var ab := a + b;
      assert ab[0] == a[0] && ab[1..] == a[1..] + b;
      DropKeyAppend(a[1..], b, key);
      if a[0].key == key {
        assert DropKey(ab, key) == DropKey(a[1..] + b, key);
        assert DropKey(a, key) == DropKey(a[1..], key);
      } else {
        assert DropKey(ab, key) == [a[0]] + DropKey(a[1..] + b, key);
        assert DropKey(a, key) == [a[0]] + DropKey(a[1..], key);
      }
    }
  }

  /** `DropKey` of a one-pair list. */
  lemma DropKeySingle(p: Param, key: string)
    ensures DropKey([p], key) == if p.key == key then [] else [p]
  {
    assert [p][1..] == [];
  }

  /** After `set`, exactly one pair carries `key` and it carries the new value;
      it takes the place of the first old `key` pair when there was one; and the
      pairs with other keys are those of before, in the same order. */
  lemma SetParamSpec(ps: seq<Param>, key: string, value: string)
    ensures var r := SetParam(ps, key, value);
      && (exists j :: 0 <= j < |r| && r[j] == Param(key, value) &&
            (forall i :: 0 <= i < |r| && r[i].key == key ==> i == j))
      && DropKey(r, key) == DropKey(ps, key)
    ensures (exists i :: 0 <= i < |ps| && ps[i].key == key) ==>
      SetParam(ps, key, value)
        == ps[..FirstIndex(ps, key)] + [Param(key, value)] + DropKey(ps[FirstIndex(ps, key) + 1..], key)
  {
    var r := SetParam(ps, key, value);
    if forall i :: 0 <= i < |ps| ==> ps[i].key != key {
      AppendSpec(ps, Param(key, value), key);
      assert r[|ps|] == Param(key, value);
    } else {
      SetParamSplice(ps, key, value);
      SetParamPresent(ps, key, value);
      assert r[FirstIndex(ps, key)] == Param(key, value);
    }
  }

  /** With a `key` pair present, `set` splices the new pair in at the first one. */
  lemma SetParamSplice(ps: seq<Param>, key: string, value: string)
    requires exists i :: 0 <= i < |ps| && ps[i].key == key
    ensures SetParam(ps, key, value)
         == ps[..FirstIndex(ps, key)] + [Param(key, value)] + DropKey(ps[FirstIndex(ps, key) + 1..], key)
  {
    ReplaceFirstSplice(ps, key, value);
  }

  /** With a `key` pair present, the spliced list has the new pair at the first
      `key` position and nowhere else, and the other pairs are unchanged. */
  lemma SetParamPresent(ps: seq<Param>, key: string, value: string)
    requires exists i :: 0 <= i < |ps| && ps[i].key == key
    ensures var r := SetParam(ps, key, value);
      && FirstIndex(ps, key) < |r|
      && r[FirstIndex(ps, key)] == Param(key, value)
      && (forall i :: 0 <= i < |r| && r[i].key == key ==> i == FirstIndex(ps, key))
      && DropKey(r, key) == DropKey(ps, key)
  {
    var j := FirstIndex(ps, key);
    var front, rest := ps[..j], ps[j + 1..];
    SetParamSplice(ps, key, value);
    SplitAt(ps, j);
    ReplaceSpec(front, ps[j], Param(key, value), rest, key);
  }

  /** A list is its prefix, the element at `j`, and its suffix. */
  lemma SplitAt<T>(s: seq<T>, j: nat)
    requires j < |s|
    ensures s == s[..j] + [s[j]] + s[j + 1..]
    ensures forall i :: 0 <= i < j ==> s[..j][i] == s[i]
  {
  }

  /** Putting the head back in front of a spliced tail. */
  lemma ConsSplice<T>(s: seq<T>, j: nat, x: T, rest: seq<T>)
    requires j + 1 < |s|
    ensures [s[0]] + (s[1..][..j] + [x] + rest) == s[..j + 1] + [x] + rest
    ensures s[1..][j + 1..] == s[j + 2..]
  {
    assert s[..j + 1] == [s[0]] + s[1..][..j];
  }

  /** Appending a pair whose key no pair has yet. */
  lemma AppendSpec(ps: seq<Param>, p: Param, key: string)
    requires forall i :: 0 <= i < |ps| ==> ps[i].key != key
    requires p.key == key
    ensures var r := ps + [p];
      && r[|ps|] == p
      && (forall i :: 0 <= i < |r| && r[i].key == key ==> i == |ps|)
      && DropKey(r, key) == DropKey(ps, key)
  {
    DropKeySingle(p, key);
    DropKeyAppend(ps, [p], key);
  }

  /** Replacing the first `key` pair and dropping `key` from what follows. */
  lemma ReplaceSpec(front: seq<Param>, replaced: Param, inserted: Param, rest: seq<Param>, key: string)
    requires forall i :: 0 <= i < |front| ==> front[i].key != key
    requires replaced.key == key && inserted.key == key
    ensures var r := front + [inserted] + DropKey(rest, key);
      && r[|front|] == inserted
      && (forall i :: 0 <= i < |r| && r[i].key == key ==> i == |front|)
      && r[..|front|] == front
      && DropKey(r, key) == DropKey(front + [replaced] + rest, key)
  {
    var back := DropKey(rest, key);
    var r := front + [inserted] + back;
    assert forall i :: |front| < i < |r| ==> r[i] == back[i - |front| - 1];
    DropKeySingle(inserted, key);
    DropKeySingle(replaced, key);
    DropKeyAbsent(front, key);
    DropKeyAbsent(back, key);
    DropKeyAppend(front + [inserted], back, key);
    DropKeyAppend(front, [inserted], key);
    DropKeyAppend(front + [replaced], rest, key);
    DropKeyAppend(front, [replaced], key);
  }

  /** The key list a filter contributes: its key when the filter is non-empty. */
  function Present(key: string, filter: string): seq<string>
  {
    if filter != "" then [key] else []
  }

  /** The pair a filter contributes: one when the filter is non-empty, so its
      key list is the one `Present` gives. */
  function Pair(key: string, filter: string): (r: seq<Param>)
    ensures Keys(r) == Present(key, filter)
    ensures forall i :: 0 <= i < |r| ==> r[i] == Param(key, filter)
  {
    if filter != "" then [Param(key, filter)] else []
  }

  /** The three optional pairs, in order, have exactly the keys of the non-empty filters. */
  lemma QueryPairs(query: string, role: string, team: string)
    ensures var q := Pair("query", query) + Pair("role", role) + Pair("team", team);
      && Keys(q) == Present("query", query) + Present("role", role) + Present("team", team)
      && ("query" in Keys(q) <==> query != "")
      && ("role" in Keys(q) <==> role != "")
      && ("team" in Keys(q) <==> team != "")
      && forall i :: 0 <= i < |q| ==>
           q[i] == Param("query", query) || q[i] == Param("role", role) || q[i] == Param("team", team)
  {
    var q := Pair("query", query) + Pair("role", role) + Pair("team", team);
    assert Keys(q) == Present("query", query) + Present("role", role) + Present("team", team);
  }

  // ---------------------------------------------------------------------------
  // The table's view state

  /** A sort entry as the table library keeps it. */
  datatype SortEntry = SortEntry(id: string, desc: bool)

  class TableView {
    var globalFilter: string
    var roleFilter: string
    var teamFilter: string
    var sorting: seq<SortEntry>
    var pageIndex: nat
    var pageSize: nat

    /** The view state a freshly mounted table starts from. */
    constructor ()
      ensures globalFilter == "" && roleFilter == "" && teamFilter == ""
      ensures sorting == [] && pageIndex == 0 && pageSize == 10
    {
      globalFilter, roleFilter, teamFilter := "", "", "";
      sorting := [];
      pageIndex, pageSize := 0, 10;
    }

    /** The search box. A filter that changes sends the table back to its first
        page (the table library's automatic page-index reset, which this
        configuration leaves on); setting the same value again changes nothing. */
    method SetGlobalFilter(s: string)
      modifies this
      ensures globalFilter == s && roleFilter == old(roleFilter) && teamFilter == old(teamFilter)
      ensures sorting == old(sorting) && pageSize == old(pageSize)
      ensures pageIndex == if s == old(globalFilter) then old(pageIndex) else 0
    {
      if s != globalFilter {
        pageIndex := 0;
      }
      globalFilter := s;
    }

    /** The role select. */
    method SetRoleFilter(s: string)
      modifies this
      ensures roleFilter == s && globalFilter == old(globalFilter) && teamFilter == old(teamFilter)
      ensures sorting == old(sorting) && pageSize == old(pageSize)
      ensures pageIndex == if s == old(roleFilter) then old(pageIndex) else 0
    {
      if s != roleFilter {
        pageIndex := 0;
      }
      roleFilter := s;
    }

    /** The team select. */
    method SetTeamFilter(s: string)
      modifies this
      ensures teamFilter == s && globalFilter == old(globalFilter) && roleFilter == old(roleFilter)
      ensures sorting == old(sorting) && pageSize == old(pageSize)
      ensures pageIndex == if s == old(teamFilter) then old(pageIndex) else 0
    {
      if s != teamFilter {
        pageIndex := 0;
      }
      teamFilter := s;
    }

    /** The query string's pairs, built as the effect builds them: `query`,
        `role` and `team`, each only when its filter is non-empty, in that order. */
    method QueryParams() returns (q: seq<Param>)
      ensures "query" in Keys(q) <==> globalFilter != ""
      ensures "role" in Keys(q) <==> roleFilter != ""
      ensures "team" in Keys(q) <==> teamFilter != ""
      ensures Keys(q) == Present("query", globalFilter) + Present("role", roleFilter) + Present("team", teamFilter)
      ensures forall i :: 0 <= i < |q| ==>
        q[i] == Param("query", globalFilter) || q[i] == Param("role", roleFilter) || q[i] == Param("team", teamFilter)
      ensures q == Pair("query", globalFilter) + Pair("role", roleFilter) + Pair("team", teamFilter)
    {
      q := [];
      if globalFilter != "" {
        q := SetParam(q, "query", globalFilter);
      }
      assert q == Pair("query", globalFilter);
      if roleFilter != "" {
        q := SetParam(q, "role", roleFilter);
      }
      assert q == Pair("query", globalFilter) + Pair("role", roleFilter);
      if teamFilter != "" {
        q := SetParam(q, "team", teamFilter);
      }
      assert q == Pair("query", globalFilter) + Pair("role", roleFilter) + Pair("team", teamFilter);
      QueryPairs(globalFilter, roleFilter, teamFilter);
    }
  }
}
